=== FILE: README.md ===
# SA:MP Launcher .NET — server-list core of the main form

This project models, in Dafny, the server-list bookkeeping of the launcher's
main window (`MainForm`):

- **Dispatcher pass** (`Dispatcher`). This is one iteration of the background
  thread.
  - It scans the pending list of (server, group index) pairs.
  - It moves favourite and backend records, and records whose ping or
    information has been fetched, to the ready list.
  - It asks every other record for ping and information, with a 5000 ms
    expiry.
- **Timer tick** (`Drain`). The tick empties the ready list. For each entry
  it:
  - appends one table row, with sentinel values (ping 1000, `-`, `0/0`) for
    data not yet fetched;
  - registers the address in the address index if it is new;
  - adds one to the owning group's server count, a C# `uint` that wraps at
    2^32;
  - calls `EnterRow` while the "query first server" flag holds, until one
    call succeeds.
- **Row filter** (`ServerFilter`):
  - escaping the filter text;
  - the `GroupID=<n>[ AND `<column>` LIKE '%<text>%']` expression, and a
    reader for it that recovers the group and the clause.
- **Groups and favourites** (`Groups`):
  - selecting a group, which enqueues its servers once;
  - clearing all groups;
  - the favourite-list queries;
  - adding a server to, or removing one from, a favourite list, which reloads
    that group.
- **FPS-limit field** (`FpsLimit`). The field's text is parsed, clamped into
  the track bar's range and written back.
- **.NET primitives the form leans on** (`Text`): `String.Trim`,
  `Int32.TryParse` and `Int32.ToString`.

The form is one immutable record (`Records.Form`), and each event handler is a pure function from form to form. Server records are values
carrying the set of request kinds fetched at the instant of the step. The
transport behind `SendQueryWhenExpired` is therefore not part of this model:
a pass returns the queries it issues. The result of each `EnterRow` call is a
parameter `enterRow(k)`, the outcome of the k-th call.

The move condition is a disjunction (`MainForm.cs:221`). An entry leaves the
pending list once its ping OR its information is fetched, not only once both
are. `Dispatcher.MovesToReady` states the condition, and
`Dispatcher.PingAloneMoves` shows the consequence.

## Model

| member | source | states |
|---|---|---|
| Dispatcher.MovesToReady | SAMPLauncherNET/MainForm.cs:215-224 | The move condition is a disjunction. A favourite or backend record moves, and so does a server whose ping or whose information has been fetched. |
| Dispatcher.RemoveFirst | SAMPLauncherNET/MainForm.cs:234 | `List.Remove` drops exactly one occurrence of a present element: the length falls by one and the multiset loses that element. An absent element leaves the list as it is. |
| Dispatcher.RemoveFirstAt | SAMPLauncherNET/MainForm.cs:234 | `List.Remove` drops the first occurrence: when the element first occurs at position i, the result is the list without position i, the rest in order. |
| Dispatcher.DispatchPass | SAMPLauncherNET/MainForm.cs:208-242 | The ready list keeps its old entries as a prefix. The new pending list and the appended ready entries form an order-preserving merge of the old pending list, with equal multisets. Every entry still pending fails the move condition, and every appended entry meets it. Exactly two queries go out per entry still pending: ping then information, 5000 ms expiry. Nothing else in the form changes. |
| Dispatcher.RemoveEachLeavesStaying | SAMPLauncherNET/MainForm.cs:232-235 | Removing each collected entry with first-occurrence `List.Remove` leaves exactly the entries that do not move, in order, even when equal entries occur several times. |
| Dispatcher.RemoveFirstCommutes | SAMPLauncherNET/MainForm.cs:232-235 | Removing a moving entry from the pending list and then collecting equals collecting and then removing it from the collected list. |
| Dispatcher.QueriesForStaying | SAMPLauncherNET/MainForm.cs:213-231 | The scan issues queries for the staying entries only, two per entry, ping first, in list order. |
| Dispatcher.PingAloneMoves | SAMPLauncherNET/MainForm.cs:221-224 | A queried server with only its ping fetched leaves the pending list in one pass. |
| Dispatcher.NothingFetchedStays | SAMPLauncherNET/MainForm.cs:225-229 | A queried server with nothing fetched stays pending and is sent exactly a ping and an information query. |
| Records.FilterPartitions | SAMPLauncherNET/MainForm.cs:213-239 | Splitting the pending list by the move condition loses nothing, duplicates nothing and keeps the relative order on both sides. |
| Drain.TimerTick | SAMPLauncherNET/MainForm.cs:963-1013 | The ready list is emptied. One row per drained entry is appended in order after the old rows, each showing the entry's group and address, its ping or 1000, and its information or the `-`/`0/0` placeholders. Known addresses keep their binding. A new address is bound to the first drained server with that address, and to nothing if none has it. The pending list, selection and filter are untouched. |
| Drain.TickCountsServers | SAMPLauncherNET/MainForm.cs:1005-1011 | Each in-range group's server count grows by the number of drained entries of that group, modulo 2^32. Out-of-range group indices change no count. |
| Drain.TickEntersFirstRow | SAMPLauncherNET/MainForm.cs:1001-1004 | With the flag clear, `EnterRow` is never called. With it set, `EnterRow` is called once per entry until the first success, which clears the flag. The flag survives only if every call failed. |
| Drain.RedrainKeepsIndex | SAMPLauncherNET/MainForm.cs:997-1000 | Draining the same entries again leaves the address index unchanged, so registration is idempotent. |
| Drain.RedrainRepeatsRows | SAMPLauncherNET/MainForm.cs:967-996 | Draining the same entries again appends the same rows again, because rows are added unconditionally. |
| Drain.DrainRows | SAMPLauncherNET/MainForm.cs:967-996 | The drain loop appends exactly one row per entry, equal to that entry's row, after the existing rows. |
| Drain.DrainRegisters | SAMPLauncherNET/MainForm.cs:997-1000 | The drain loop keeps existing bindings and binds each new address to its first occurrence among the drained entries. |
| Drain.DrainCounts | SAMPLauncherNET/MainForm.cs:1005-1011 | The drain loop raises each in-range group's count by its number of entries, wrapping at 2^32, and changes nothing else about the connectors. |
| Drain.DrainEntersFirstRow | SAMPLauncherNET/MainForm.cs:1001-1004 | The drain loop makes `EnterRow` calls exactly up to and including the first success while the flag holds. |
| ServerFilter.Escape | SAMPLauncherNET/MainForm.cs:515-536 | The escaped text contains no quote. Its length is the original length, minus one per quote, plus one per backslash and per percent sign. |
| ServerFilter.EscapeRoundTrip | SAMPLauncherNET/MainForm.cs:515-536 | Reading the escaped text back, with a backslash standing for the next character, gives the input with its quotes removed. Every backslash and percent sign of the result belongs to an escape pair. |
| ServerFilter.EscapeEmpty | SAMPLauncherNET/MainForm.cs:543-546 | The escaped text is empty exactly when its input holds nothing but quotes, so the filter adds its clause only otherwise. |
| ServerFilter.BuildFilter | SAMPLauncherNET/MainForm.cs:543-566 | Builds `GroupID=<n>` and, when the escaped text is non-empty, the LIKE clause on the chosen column. `ParseBuiltFilter` and `FilterQuotes` state what the string means: the group, the column, the text with every backslash and percent sign escaped, and no quote but the two delimiters. |
| ServerFilter.ParseBuiltFilter | SAMPLauncherNET/MainForm.cs:541-567 | Reading the built filter back gives the selected group index. It gives a clause exactly when the trimmed text without quotes is non-empty, on the column the radio buttons choose (hostname, then mode, then language, else address), matching that text. The reader accepts only a well-escaped pattern, in which every backslash and percent sign sits in an escape pair, so an unescaped `%` would not read back. |
| ServerFilter.FilterQuotes | SAMPLauncherNET/MainForm.cs:541-567 | The filter contains no quote, or exactly the two that delimit the LIKE pattern, so the user's text cannot close the literal. |
| ServerFilter.ParseFilterParts | SAMPLauncherNET/MainForm.cs:544-545 | Text after `GroupID=` that parses as a 32-bit integer and holds no space is read back as that group. It may be followed by nothing or by a clause starting with a space. |
| ServerFilter.UpdateServerListFilter | SAMPLauncherNET/MainForm.cs:541-569 | Only the table filter changes. Read back, it gives the selected group, and a clause exactly when the trimmed text without quotes is non-empty. The clause is on the column the radio buttons choose and matches that text. |
| ServerFilter.FilterInputChanged | SAMPLauncherNET/MainForm.cs:1138-1151 | After a text or radio-button change, the input is stored and only the filter changes. Read back, the filter gives the selected group and, exactly when the trimmed text without quotes is non-empty, a clause on the chosen column matching that text. |
| Text.TrimBy | SAMPLauncherNET/MainForm.cs:543 | The trimmed text is the contiguous slice of the input after its leading white space. Everything after it is white space. It neither starts nor ends with white space, and it is empty exactly when the input is all white space. |
| Text.ParseInt32Accepts | SAMPLauncherNET/MainForm.cs:1385 | `int.TryParse` accepts white space, an optional `+` or `-`, at least one digit and white space again. Such a text parses exactly when the signed value of its digits fits in 32 bits, and then to that value. |
| Text.ParseInt32Shape | SAMPLauncherNET/MainForm.cs:1385 | `int.TryParse` fails on empty or all-white text. When it succeeds, the text has a digit followed only by white space. |
| Text.ParseFormattedInt | SAMPLauncherNET/MainForm.cs:1385-1400 | Parsing the decimal text of any 32-bit integer gives back that integer. |
| Text.IntToString | SAMPLauncherNET/MainForm.cs:545 | The decimal text starts with a minus sign exactly when the number is negative. Otherwise it starts with a digit, and it always ends with a digit. It is the shortest form: zero is `0`, and no other number has a leading zero after the sign. |
| Groups.SelectAPI | SAMPLauncherNET/MainForm.cs:312-335 | The selection takes the new index; the combo box handler at lines 1549-1553 sets it just before. An out-of-range index changes nothing else. An in-range index sets the query-first flag and rebuilds the filter. Read back, the filter gives the group and, exactly when the trimmed text without quotes is non-empty, a clause on the chosen column matching that text. If the group is not loaded, its servers are enqueued tagged with its index and it is marked loaded; if it is loaded, nothing is enqueued. The filter input, ready list, rows and address index are untouched. |
| Groups.ReselectAddsNothing | SAMPLauncherNET/MainForm.cs:321-328 | Selecting the same group twice enqueues its servers at most once. |
| Groups.ClearAPIs | SAMPLauncherNET/MainForm.cs:250-272 | The selection becomes -1, and the groups, pending list, ready list, address index and rows are all empty. |
| Groups.ClearedFormIsQuiet | SAMPLauncherNET/MainForm.cs:250-272 | After clearing, a dispatcher pass and a timer tick change nothing and send nothing. No favourite list is selected or listed, and any selection only sets the index. |
| Groups.IsInFavouriteList | SAMPLauncherNET/MainForm.cs:118-130 | The selection is in a favourite list when it indexes an existing connector of one of the two favourite types. `InFavouriteListIffListed` relates it to the favourite-lists query. |
| Groups.FavouritesUpTo | SAMPLauncherNET/MainForm.cs:135-150 | The favourite lists come out in increasing index order, each paired with the connector at its index. A connector is listed exactly when its type is one of the two favourite types. |
| Groups.InFavouriteListIffListed | SAMPLauncherNET/MainForm.cs:118-130 | The selection is in a favourite list exactly when its index is among the indices the favourite-lists query returns. |
| Groups.ReloadFavourites | SAMPLauncherNET/MainForm.cs:576-589 | The rows of the reloaded group are deleted and all other rows kept. The kept rows and the deleted rows merge back into the old rows, so order and repeated rows survive. Every server of the list is enqueued, tagged with the group index. Nothing else changes. |
| Groups.RemoveKey | SAMPLauncherNET/MainForm.cs:945 | `Dictionary.Remove`: the key set loses the key, and exactly the servers under other keys remain. Unique keys stay unique. |
| Groups.AddToFavourites | SAMPLauncherNET/MainForm.cs:1997-2010 | An address already in the list is refused, and only then. Otherwise the favourite is appended under a new key, so keys stay unique. The list is reloaded: its rows are deleted, the other rows are kept in order, and its servers are enqueued. Only that list's dictionary, the rows and the pending list change. |
| Groups.RemoveSelectionFromFavourites | SAMPLauncherNET/MainForm.cs:933-954 | Outside a favourite list the request is refused, and only there. With no selection, no confirmation or an absent key, nothing changes. Otherwise exactly the selected address is removed and unique keys are preserved. The list is reloaded: its rows are deleted, the other rows are kept in order, and its remaining servers are enqueued. Only that list's dictionary, the rows and the pending list change. |
| Groups.RemoveKeyLength | SAMPLauncherNET/MainForm.cs:943-945 | Removing a present key from a dictionary with unique keys shortens it by exactly one. |
| Groups.AddThenRemoveRestores | SAMPLauncherNET/MainForm.cs:2001-2008 | Adding a server to a favourite list and removing its address again restores the list exactly. |
| FpsLimit.FpsLimitTextChanged | SAMPLauncherNET/MainForm.cs:1382-1406 | The track bar gets a value within its range, and the field shows that value's decimal text. Unparsable text gives the minimum. A number in range is kept, and one outside is clamped to the nearer bound. Text already showing an in-range value is left as it is. |
| FpsLimit.FpsLimitSettles | SAMPLauncherNET/MainForm.cs:1395-1398 | Running the handler again on the text it wrote, as the rewrite re-raises the event, changes nothing. |

## Left out

- Threads, locks and the timer: the dispatcher loop and the tick are single atomic steps. The interleavings the locks permit are not modelled.
- The network transport: `SendQueryWhenExpired` is recorded as a returned query. `IsDataFetched` is a snapshot set in each server record.
- `RequestServerInfo` and the detail panes (the players and rules tables) are not modelled. They depend on a background thread, sleeps and the wall clock. The detail-ready flag `rowThreadSuccess` is simply the conjunction of the four fetched flags of the selected server.
- `EnterRow` itself: it reads the grid's selected server, which is UI state the model does not hold. It succeeds when a server is selected, and the model takes only that boolean result as a parameter.
- `ReloadSelectedServerRow` (MainForm.cs:381-415): it rewrites, in place, the ping, hostname, players, mode and language cells of the grid's selected rows from the registered server. The tick calls it directly at lines 1016-1019. `EnterRow` calls it when the selected server has all four kinds fetched, and `EnterRow` is called from the tick (line 1003), from `SelectAPI` (line 333) and from `UpdateServerListFilter` (line 568). The model holds no grid selection, so this rewrite is left out.
- Drain.TimerTick: the old rows are kept unchanged only because the in-place rewrite of the selected row by `ReloadSelectedServerRow` is left out.
- Groups.SelectAPI: the rows stay unchanged only because the in-place rewrite of the selected row by `ReloadSelectedServerRow` is left out.
- ServerFilter.UpdateServerListFilter: the rows stay unchanged only because the in-place rewrite of the selected row by `ReloadSelectedServerRow` is left out.
- `UpdateServerCount`: it only writes a label.
- `ReloadAPIs`: it reads the configured lists from disk. The model starts from any list of connectors.
- The `ServerListIO` setter's persistence: a connector's dictionary is its `servers` field.
- Groups.AddToFavourites: the choice of list when several favourite lists exist, and the "no favourites" message, are dialogs. The operation receives the chosen list's index, which always comes from the favourite-lists query.
- Groups.RemoveSelectionFromFavourites: the confirmation dialog is the `confirmed` parameter. The message shown outside a favourite list is the `NotInFavourites` error. The `promptWhenError` argument is dropped: the Delete key (MainForm.cs:1644) passes false and shows nothing, where the model still returns `NotInFavourites`. The form is unchanged either way.
- The semantics of `DataTable` LIKE filtering: the model stops at the filter string and the reader that recovers its meaning.
- Dictionary enumeration order after removals: a dictionary is kept in insertion order. .NET may reuse a freed slot, so it can enumerate a later-added key earlier.
- Server identity: entries are compared by value, whereas `List.Remove` on `KeyValuePair` compares the server reference and the index. Two equal snapshots of distinct servers are not told apart.
- List types other than the two favourite kinds are merged into `OtherList`, since only the favourite test depends on them.
- Text.ParseInt32: culture-specific sign strings are not modelled; the invariant culture's `+` and `-` are.
- Text.IntToString: the negative sign is the invariant culture's `-`. A culture with another negative sign, which would also appear in the `GroupID=-1` filter when nothing is selected, is not modelled.
- Translations, message boxes, process launching, the gallery, the versions and developer tools: these are not server-list logic.

=== FILE: dispatcher.dfy ===
/** One iteration of the background loop that moves servers from the
    pending list to the ready list (the body of the `serversThread` loop in
    MainForm.cs). The loop runs forever; locking and the thread itself are
    not modelled, one pass is a pure step. */
module Dispatcher {
  import opened Wrappers
  import opened Text
  import opened Records

  /** The expiry, in milliseconds, after which an unanswered query is sent
      again. */
  const QUERY_EXPIRY_MS: nat := 5000

  /** A `SendQueryWhenExpired(kind, expiry)` call on a server. Whether it
      really sends depends on the transport, which is not modelled. */
  datatype Query = Query(server: Server, kind: RequestKind, expiryMs: nat)

  /** An entry leaves the pending list when its server is a favourite or
      backend record, or when its ping OR its information has been fetched. */
  predicate MovesToReady(e: Entry)
  {
    || e.server.variant == Favourite
    || e.server.variant == BackendRESTful
    || IsDataFetched(e.server, Ping)
    || IsDataFetched(e.server, Information)
  }

  /** The queries the scan issues: a ping and an information query, in that
      order, for each entry that does not move. */
  function QueriesFor(pending: seq<Entry>): seq<Query>
  {
    if pending == [] then []
    else
      var e := pending[0];
      var here := if MovesToReady(e) then []
                  else [Query(e.server, Ping, QUERY_EXPIRY_MS), Query(e.server, Information, QUERY_EXPIRY_MS)];
      here + QueriesFor(pending[1..])
  }

  /** `List.Remove`: drops the first element equal to `x`, if any. */
  function RemoveFirst<T(==)>(s: seq<T>, x: T): (r: seq<T>)
    ensures x in s ==> |r| == |s| - 1
    ensures x !in s ==> r == s
    ensures x in s ==> multiset(r) == multiset(s) - multiset{x}
  {
    if s == [] then []
    else
      assert s == [s[0]] + s[1..];
      if s[0] == x then s[1..]
      else [s[0]] + RemoveFirst(s[1..], x)
  }

  /** `List.Remove` drops the first occurrence and keeps the rest in
      order: when `x` first occurs at `i`, the result is `s` without
      position `i`. */
  lemma {:induction false} RemoveFirstAt<T>(s: seq<T>, x: T, i: nat)
    requires i < |s| && s[i] == x
    requires forall k :: 0 <= k < i ==> s[k] != x
    ensures RemoveFirst(s, x) == s[..i] + s[i + 1..]
  {
    if i == 0 {
      assert s[..0] + s[1..] == s[1..];
    } else {
      var t := s[1..];
      assert forall k :: 0 <= k < i - 1 ==> t[k] == s[k + 1];
      RemoveFirstAt(t, x, i - 1);
      RemoveFirstStep(s, x);
      SplitAfterHead(s, i);
    }
  }

  lemma RemoveFirstStep<T>(s: seq<T>, x: T)
    requires s != [] && s[0] != x
    ensures RemoveFirst(s, x) == [s[0]] + RemoveFirst(s[1..], x)
  {
  }

  lemma SplitAfterHead<T>(s: seq<T>, i: nat)
    requires 0 < i < |s|
    ensures [s[0]] + (s[1..][..i - 1] + s[1..][i..]) == s[..i] + s[i + 1..]
  {
    assert s[1..][..i - 1] == s[1..i] && s[1..][i..] == s[i + 1..];
    assert [s[0]] + s[1..i] == s[..i];
  }

  /** The loop after the scan that removes, one at a time, each collected
      entry from the pending list with `List.Remove`. */
  function RemoveEach<T(==)>(s: seq<T>, rlist: seq<T>): seq<T>
    decreases |rlist|
  {
    if rlist == [] then s else RemoveEach(RemoveFirst(s, rlist[0]), rlist[1..])
  }

  lemma {:induction false} RemoveFirstKeepsStaying<T>(s: seq<T>, p: T -> bool, x: T)
    requires p(x)
    ensures FilterOut(RemoveFirst(s, x), p) == FilterOut(s, p)
  {
    if s != [] && s[0] != x {
      RemoveFirstKeepsStaying(s[1..], p, x);
      var t := [s[0]] + RemoveFirst(s[1..], x);
      assert t[0] == s[0] && t[1..] == RemoveFirst(s[1..], x);
      assert FilterOut(t, p) == (if p(s[0]) then [] else [s[0]]) + FilterOut(t[1..], p);
    }
  }

  lemma {:induction false} RemoveFirstCommutes<T>(s: seq<T>, p: T -> bool, x: T)
    requires p(x)
    ensures Filter(RemoveFirst(s, x), p) == RemoveFirst(Filter(s, p), x)
  {
    if s == [] {
    } else if s[0] == x {
      var fs := Filter(s, p);
      assert fs == [x] + Filter(s[1..], p);
      assert fs[0] == x && fs[1..] == Filter(s[1..], p);
    } else {
      RemoveFirstCommutes(s[1..], p, x);
      var t := [s[0]] + RemoveFirst(s[1..], x);
      assert t[0] == s[0] && t[1..] == RemoveFirst(s[1..], x);
      var ft := Filter(t, p);
      assert ft == (if p(s[0]) then [s[0]] else []) + Filter(RemoveFirst(s[1..], x), p);
      var fs := Filter(s, p);
      if p(s[0]) {
        assert fs == [s[0]] + Filter(s[1..], p);
        assert fs[0] == s[0] && fs[1..] == Filter(s[1..], p);
        assert RemoveFirst(fs, x) == [s[0]] + RemoveFirst(Filter(s[1..], p), x);
      } else {
        assert fs == Filter(s[1..], p);
      }
    }
  }

  /** Removing, one by one, the entries the scan picked leaves exactly the
      entries that do not move, however often equal entries occur. */
  lemma {:induction false} RemoveEachLeavesStaying<T>(s: seq<T>, p: T -> bool, rlist: seq<T>)
    requires Filter(s, p) == rlist
    ensures RemoveEach(s, rlist) == FilterOut(s, p)
    decreases |rlist|
  {
    if rlist == [] {
      NothingFiltered(s, p);
    } else {
      assert p(rlist[0]) by { assert rlist[0] in Filter(s, p); }
      RemoveFirstKeepsStaying(s, p, rlist[0]);
      RemoveFirstCommutes(s, p, rlist[0]);
      assert RemoveFirst(rlist, rlist[0]) == rlist[1..];
      RemoveEachLeavesStaying(RemoveFirst(s, rlist[0]), p, rlist[1..]);
    }
  }

  lemma {:induction false} NothingFiltered<T>(s: seq<T>, p: T -> bool)
    requires Filter(s, p) == []
    ensures FilterOut(s, p) == s
  {
    if s != [] {
      assert Filter(s[1..], p) == Filter(s, p);
      NothingFiltered(s[1..], p);
      assert s == [s[0]] + s[1..];
    }
  }

  /** The scan sends two queries per staying entry, ping first, in the
      order of the staying entries. */
  lemma {:induction false} QueriesForStaying(pending: seq<Entry>)
    ensures var stay := FilterOut(pending, MovesToReady);
      && |QueriesFor(pending)| == 2 * |stay|
      && forall i :: 0 <= i < |stay| ==>
           && QueriesFor(pending)[2 * i] == Query(stay[i].server, Ping, QUERY_EXPIRY_MS)
           && QueriesFor(pending)[2 * i + 1] == Query(stay[i].server, Information, QUERY_EXPIRY_MS)
  {
    if pending != [] {
      QueriesForStaying(pending[1..]);
      var e := pending[0];
      if !MovesToReady(e) {
        var stay := FilterOut(pending, MovesToReady);
        var rest := FilterOut(pending[1..], MovesToReady);
        assert stay == [e] + rest;
        var q := QueriesFor(pending);
        forall i | 1 <= i < |stay|
          ensures q[2 * i] == Query(stay[i].server, Ping, QUERY_EXPIRY_MS)
          ensures q[2 * i + 1] == Query(stay[i].server, Information, QUERY_EXPIRY_MS)
        {
          assert stay[i] == rest[i - 1];
          assert q[2 * i] == QueriesFor(pending[1..])[2 * (i - 1)];
          assert q[2 * i + 1] == QueriesFor(pending[1..])[2 * (i - 1) + 1];
        }
      }
    }
  }

  /** The outcome of a pass: the new form and the queries it issued. */
  datatype Pass = Pass(form: Form, sent: seq<Query>)

  /** One pass of the dispatcher loop: scan the pending list collecting the
      entries that move (`rlist`) and querying the rest, remove the moved
      entries from the pending list, and append them to the ready list. */
  function DispatchPass(f: Form): (r: Pass)
    // conservation and order: the new pending list and the newly appended
    // ready entries are a merge of the old pending list
    ensures |f.ready| <= |r.form.ready| && r.form.ready[..|f.ready|] == f.ready
    ensures Interleaving(r.form.pending, r.form.ready[|f.ready|..], f.pending)
    ensures multiset(r.form.pending) + multiset(r.form.ready[|f.ready|..]) == multiset(f.pending)
    // the split is by the move condition
    ensures forall e :: e in r.form.pending ==> !MovesToReady(e)
    ensures forall e :: e in r.form.ready[|f.ready|..] ==> MovesToReady(e)
    // queries only for entries that stay, ping then information, 5000 ms
    ensures |r.sent| == 2 * |r.form.pending|
    ensures forall i :: 0 <= i < |r.form.pending| ==>
              && r.sent[2 * i] == Query(r.form.pending[i].server, Ping, QUERY_EXPIRY_MS)
              && r.sent[2 * i + 1] == Query(r.form.pending[i].server, Information, QUERY_EXPIRY_MS)
    // nothing else changes
    ensures r.form == f.(pending := r.form.pending, ready := r.form.ready)
  {
    var rlist := Filter(f.pending, MovesToReady);
    var pending' := RemoveEach(f.pending, rlist);
    RemoveEachLeavesStaying(f.pending, MovesToReady, rlist);
    FilterPartitions(f.pending, MovesToReady);
    QueriesForStaying(f.pending);
    var ready' := f.ready + rlist;
    assert ready'[|f.ready|..] == rlist;
    Pass(f.(pending := pending', ready := ready'), QueriesFor(f.pending))
  }

  /** The move condition is a disjunction: a queried server whose ping has
      arrived moves even though its information has not. */
  lemma PingAloneMoves(f: Form, s: Server, g: int32)
    requires f.pending == [Entry(s, g)]
    requires s.variant == Queried && s.fetched == {Ping}
    ensures DispatchPass(f).form.pending == []
    ensures DispatchPass(f).form.ready == f.ready + [Entry(s, g)]
  {
    var r := DispatchPass(f);
    assert Entry(s, g) !in r.form.pending;
    assert multiset(r.form.ready[|f.ready|..]) == multiset{Entry(s, g)};
  }

  /** A queried server with nothing fetched stays pending and is queried
      for both ping and information. */
  lemma NothingFetchedStays(f: Form, s: Server, g: int32)
    requires f.pending == [Entry(s, g)]
    requires s.variant == Queried && s.fetched == {}
    ensures DispatchPass(f).form.pending == f.pending
    ensures DispatchPass(f).form.ready == f.ready
    ensures DispatchPass(f).sent ==
      [Query(s, Ping, QUERY_EXPIRY_MS), Query(s, Information, QUERY_EXPIRY_MS)]
  {
    var r := DispatchPass(f);
    assert Entry(s, g) !in r.form.ready[|f.ready|..];
    assert multiset(r.form.pending) == multiset{Entry(s, g)};
    assert r.form.ready == r.form.ready[..|f.ready|] + r.form.ready[|f.ready|..];
  }
}

=== FILE: drain.dfy ===
/** The server-list part of the periodic timer tick
    (`multithreadedListsTimer_Tick` in MainForm.cs): every ready entry
    becomes one row of the servers table, its address is registered in the
    address index if new, its group's server count goes up by one, and
    `EnterRow` is retried until it first succeeds; then the ready list is
    emptied. */
module Drain {
  import opened Wrappers
  import opened Text
  import opened Records

  /** The row the tick adds for an entry: the fetched values where the kind
      has been fetched, the placeholders otherwise. */
  function RowFor(e: Entry): Row
  {
    var s := e.server;
    var info := IsDataFetched(s, Information);
    Row(e.group,
        if IsDataFetched(s, Ping) then s.ping else UNKNOWN_PING,
        if info then s.hostname else UNKNOWN_TEXT,
        if info then PlayerCount(s.playerCount, s.maxPlayers) else PlayersText(UNKNOWN_PLAYERS),
        if info then s.gamemode else UNKNOWN_TEXT,
        if info then s.language else UNKNOWN_TEXT,
        s.address)
  }

  /** `row` displays entry `e`: its group and address, the ping when
      fetched or 1000, and the information fields when fetched or the
      placeholders "-", "0/0", "-", "-". */
  ghost predicate ShowsEntry(row: Row, e: Entry)
  {
    var s := e.server;
    && row.group == e.group
    && row.address == s.address
    && row.ping == (if IsDataFetched(s, Ping) then s.ping else UNKNOWN_PING)
    && (IsDataFetched(s, Information) ==>
          && row.hostname == s.hostname
          && row.players == PlayerCount(s.playerCount, s.maxPlayers)
          && row.mode == s.gamemode
          && row.language == s.language)
    && (!IsDataFetched(s, Information) ==>
          && row.hostname == UNKNOWN_TEXT
          && row.players == PlayersText(UNKNOWN_PLAYERS)
          && row.mode == UNKNOWN_TEXT
          && row.language == UNKNOWN_TEXT)
  }

  /** The part of the form a tick changes, and the number of `EnterRow`
      calls made so far. */
  datatype Drained = Drained(
    rows: seq<Row>,
    registered: map<string, Server>,
    apis: seq<Connector>,
    queryFirstServer: bool,
    enterRowCalls: nat)

  /** The server of the first entry with address `a`, if any. */
  function FirstWithAddress(es: seq<Entry>, a: string): Option<Server>
  {
    if es == [] then None
    else if es[0].server.address == a then Some(es[0].server)
    else FirstWithAddress(es[1..], a)
  }

  /** How many entries carry group index `g`. */
  function CountInGroup(es: seq<Entry>, g: int): nat
  {
    if es == [] then 0 else (if es[0].group == g then 1 else 0) + CountInGroup(es[1..], g)
  }

  lemma {:induction false} FirstWithAddressAppend(es: seq<Entry>, e: Entry, a: string)
    ensures FirstWithAddress(es + [e], a) ==
      if FirstWithAddress(es, a).Some? then FirstWithAddress(es, a)
      else if e.server.address == a then Some(e.server)
      else None
  {
    if es != [] {
      assert (es + [e])[1..] == es[1..] + [e];
      FirstWithAddressAppend(es[1..], e, a);
    }
  }

  lemma {:induction false} CountInGroupAppend(es: seq<Entry>, e: Entry, g: int)
    ensures CountInGroup(es + [e], g) == CountInGroup(es, g) + (if e.group == g then 1 else 0)
  {
    if es != [] {
      assert (es + [e])[1..] == es[1..] + [e];
      CountInGroupAppend(es[1..], e, g);
    }
  }

  lemma ModSucc(x: nat)
    ensures (x % UINT32_LIMIT + 1) % UINT32_LIMIT == (x + 1) % UINT32_LIMIT
  {
  }

  /** The address index after registering `e`: a known address keeps its
      server. */
  function Register(registered: map<string, Server>, e: Entry): map<string, Server>
  {
    if e.server.address in registered then registered else registered[e.server.address := e.server]
  }

  /** The connectors after counting `e` towards its group, when the group
      index is in range. */
  function CountEntry(apis: seq<Connector>, e: Entry): seq<Connector>
  {
    if 0 <= e.group < |apis|
    then apis[e.group := apis[e.group].(serverCount := Inc32(apis[e.group].serverCount))]
    else apis
  }

  /** The loop body for one ready entry. */
  function DrainOne(d: Drained, e: Entry, enterRow: nat -> bool): Drained
  {
    var rows := d.rows + [RowFor(e)];
    if d.queryFirstServer
    then Drained(rows, Register(d.registered, e), CountEntry(d.apis, e), !enterRow(d.enterRowCalls), d.enterRowCalls + 1)
    else Drained(rows, Register(d.registered, e), CountEntry(d.apis, e), false, d.enterRowCalls)
  }

  /** The loop over the ready entries, in order. `enterRow(k)` is what the
      k-th `EnterRow` call returns (whether a row is selected, which depends
      on the grid). */
  function DrainEntries(d: Drained, es: seq<Entry>, enterRow: nat -> bool): Drained
    decreases |es|
  {
    if es == [] then d
    else DrainOne(DrainEntries(d, es[..|es| - 1], enterRow), es[|es| - 1], enterRow)
  }

  /** One row per entry, appended in order after the old rows. */
  lemma {:induction false} DrainRows(d: Drained, es: seq<Entry>, enterRow: nat -> bool)
    ensures var r := DrainEntries(d, es, enterRow);
      && |r.rows| == |d.rows| + |es| && r.rows[..|d.rows|] == d.rows
      && forall i :: 0 <= i < |es| ==> r.rows[|d.rows| + i] == RowFor(es[i])
    decreases |es|
  {
    if es != [] {
      var init := es[..|es| - 1];
      DrainRows(d, init, enterRow);
      var p := DrainEntries(d, init, enterRow);
      var r := DrainEntries(d, es, enterRow);
      assert r.rows == p.rows + [RowFor(es[|es| - 1])];
      forall i | 0 <= i < |es| ensures r.rows[|d.rows| + i] == RowFor(es[i]) {
        if i < |es| - 1 {
          assert es[i] == init[i];
        }
      }
    }
  }

  /** The address index keeps its bindings and binds each new address to
      the first server drained under it. */
  lemma {:induction false} DrainRegisters(d: Drained, es: seq<Entry>, enterRow: nat -> bool)
    ensures var r := DrainEntries(d, es, enterRow);
      && (forall a :: a in d.registered ==> a in r.registered && r.registered[a] == d.registered[a])
      && (forall a :: a !in d.registered ==> Lookup(r.registered, a) == FirstWithAddress(es, a))
    decreases |es|
  {
    if es != [] {
      var init := es[..|es| - 1];
      var last := es[|es| - 1];
      assert es == init + [last];
      DrainRegisters(d, init, enterRow);
      forall a {
        FirstWithAddressAppend(init, last, a);
      }
    }
  }

  /** `after` is `before` with each group's server count raised by the
      number of entries of `es` in that group, modulo 2^32, and nothing
      else changed. Entries whose group index is out of range count for no
      group. */
  ghost predicate CountsAdvanced(before: seq<Connector>, after: seq<Connector>, es: seq<Entry>)
  {
    && |after| == |before|
    && forall g :: 0 <= g < |before| ==>
         after[g] == before[g].(serverCount := (before[g].serverCount + CountInGroup(es, g)) % UINT32_LIMIT)
  }

  /** Each in-range group's count grows by the number of its entries,
      modulo 2^32; nothing else about the connectors changes. */
  lemma {:induction false} DrainCounts(d: Drained, es: seq<Entry>, enterRow: nat -> bool)
    ensures var r := DrainEntries(d, es, enterRow);
      CountsAdvanced(d.apis, r.apis, es)
    decreases |es|
  {
    if es != [] {
      var init := es[..|es| - 1];
      var last := es[|es| - 1];
      assert es == init + [last];
      DrainCounts(d, init, enterRow);
      var p := DrainEntries(d, init, enterRow);
      assert DrainEntries(d, es, enterRow).apis == CountEntry(p.apis, last);
      CountStep(d.apis, p.apis, init, last);
    }
  }

  /** Counting one more entry extends `CountsAdvanced` by that entry. */
  lemma CountStep(before: seq<Connector>, mid: seq<Connector>, init: seq<Entry>, last: Entry)
    requires CountsAdvanced(before, mid, init)
    ensures CountsAdvanced(before, CountEntry(mid, last), init + [last])
  {
    var after := CountEntry(mid, last);
    forall g | 0 <= g < |before|
      ensures after[g] == before[g].(serverCount := (before[g].serverCount + CountInGroup(init + [last], g)) % UINT32_LIMIT)
    {
      CountInGroupAppend(init, last, g);
      ModSucc(before[g].serverCount + CountInGroup(init, g));
    }
  }

  /** `EnterRow` is called once per entry while `queryFirstServer` holds,
      that is, until it first succeeds. */
  lemma {:induction false} DrainEntersFirstRow(d: Drained, es: seq<Entry>, enterRow: nat -> bool)
    ensures var r := DrainEntries(d, es, enterRow);
      && (!d.queryFirstServer ==> !r.queryFirstServer && r.enterRowCalls == d.enterRowCalls)
      && (d.queryFirstServer && r.queryFirstServer ==>
            && r.enterRowCalls == d.enterRowCalls + |es|
            && forall k :: d.enterRowCalls <= k < r.enterRowCalls ==> !enterRow(k))
      && (d.queryFirstServer && !r.queryFirstServer ==>
            && d.enterRowCalls < r.enterRowCalls <= d.enterRowCalls + |es|
            && enterRow(r.enterRowCalls - 1)
            && forall k :: d.enterRowCalls <= k < r.enterRowCalls - 1 ==> !enterRow(k))
    decreases |es|
  {
    if es != [] {
      DrainEntersFirstRow(d, es[..|es| - 1], enterRow);
    }
  }

  /** What one tick returns: the form, and how many times it called
      `EnterRow`. */
  datatype Tick = Tick(form: Form, enterRowCalls: nat)

  /** The server-list part of the timer tick. */
  function TimerTick(f: Form, enterRow: nat -> bool): (r: Tick)
    // the ready list is emptied; pending list, selection and filter stay
    ensures r.form == f.(ready := [], rows := r.form.rows, registered := r.form.registered,
                         apis := r.form.apis, queryFirstServer := r.form.queryFirstServer)
    // exactly one new row per drained entry, in order, after the old rows
    ensures |r.form.rows| == |f.rows| + |f.ready| && r.form.rows[..|f.rows|] == f.rows
    ensures forall i :: 0 <= i < |f.ready| ==> ShowsEntry(r.form.rows[|f.rows| + i], f.ready[i])
    // the address index: registering is a no-op for known addresses
    ensures forall a :: a in f.registered ==> a in r.form.registered && r.form.registered[a] == f.registered[a]
    ensures forall a :: a !in f.registered ==> Lookup(r.form.registered, a) == FirstWithAddress(f.ready, a)
  {
    var d0 := Drained(f.rows, f.registered, f.apis, f.queryFirstServer, 0);
    var d := DrainEntries(d0, f.ready, enterRow);
    DrainRows(d0, f.ready, enterRow);
    DrainRegisters(d0, f.ready, enterRow);
    assert forall i :: 0 <= i < |f.ready| ==> ShowsEntry(d.rows[|f.rows| + i], f.ready[i]) by {
      forall i | 0 <= i < |f.ready| ensures ShowsEntry(d.rows[|f.rows| + i], f.ready[i]) {
        assert d.rows[|f.rows| + i] == RowFor(f.ready[i]);
      }
    }
    Tick(f.(ready := [], rows := d.rows, registered := d.registered, apis := d.apis,
            queryFirstServer := d.queryFirstServer),
         d.enterRowCalls)
  }

  /** Each drained entry whose group index is in range adds one to that
      group's server count (modulo 2^32); out-of-range indices change no
      count, and nothing else about the connectors changes. */
  lemma TickCountsServers(f: Form, enterRow: nat -> bool)
    ensures CountsAdvanced(f.apis, TimerTick(f, enterRow).form.apis, f.ready)
  {
    var d0 := Drained(f.rows, f.registered, f.apis, f.queryFirstServer, 0);
    assert TimerTick(f, enterRow).form.apis == DrainEntries(d0, f.ready, enterRow).apis;
    DrainCounts(d0, f.ready, enterRow);
  }

  /** While `queryFirstServer` holds, the tick calls `EnterRow` once per
      drained entry; the first success clears the flag and stops the calls. */
  lemma TickEntersFirstRow(f: Form, enterRow: nat -> bool)
    ensures var r := TimerTick(f, enterRow);
      && (!f.queryFirstServer ==> !r.form.queryFirstServer && r.enterRowCalls == 0)
      && (f.queryFirstServer && r.form.queryFirstServer ==>
            r.enterRowCalls == |f.ready| && forall k :: 0 <= k < |f.ready| ==> !enterRow(k))
      && (f.queryFirstServer && !r.form.queryFirstServer ==>
            && 0 < r.enterRowCalls <= |f.ready|
            && enterRow(r.enterRowCalls - 1)
            && forall k :: 0 <= k < r.enterRowCalls - 1 ==> !enterRow(k))
  {
    var d0 := Drained(f.rows, f.registered, f.apis, f.queryFirstServer, 0);
    var d := DrainEntries(d0, f.ready, enterRow);
    var r := TimerTick(f, enterRow);
    assert r.form.queryFirstServer == d.queryFirstServer && r.enterRowCalls == d.enterRowCalls;
    DrainEntersFirstRow(d0, f.ready, enterRow);
  }

  /** Draining the same entries a second time leaves the address index as
      the first drain left it: registering an address is idempotent. */
  lemma RedrainKeepsIndex(f: Form, es: seq<Entry>, enterRow: nat -> bool)
    ensures var f1 := TimerTick(f.(ready := es), enterRow).form;
            TimerTick(f1.(ready := es), enterRow).form.registered == f1.registered
  {
    var f1 := TimerTick(f.(ready := es), enterRow).form;
    var f2 := TimerTick(f1.(ready := es), enterRow).form;
    forall a | a !in f1.registered
      ensures a !in f2.registered
    {
      if FirstWithAddress(es, a).Some? {
        assert a !in f.registered;
        assert Lookup(f1.registered, a) == FirstWithAddress(es, a);
      }
      assert Lookup(f2.registered, a) == FirstWithAddress(es, a);
    }
    assert f2.registered.Keys == f1.registered.Keys;
  }

  /** Rows, unlike the address index, are added unconditionally: draining
      the same entries a second time appends the same rows again, so the
      table can show one address in several rows. */
  lemma RedrainRepeatsRows(f: Form, es: seq<Entry>, enterRow: nat -> bool)
    ensures var f1 := TimerTick(f.(ready := es), enterRow).form;
            var f2 := TimerTick(f1.(ready := es), enterRow).form;
            && |f2.rows| == |f1.rows| + |es|
            && f2.rows[|f1.rows|..] == f1.rows[|f.rows|..]
  {
    var f1 := TimerTick(f.(ready := es), enterRow).form;
    var f2 := TimerTick(f1.(ready := es), enterRow).form;
    forall i | 0 <= i < |es|
      ensures f2.rows[|f1.rows|..][i] == f1.rows[|f.rows|..][i]
    {
      ShowsEntryUnique(f2.rows[|f1.rows| + i], f1.rows[|f.rows| + i], es[i]);
    }
  }

  /** A row shows an entry in exactly one way. */
  lemma ShowsEntryUnique(a: Row, b: Row, e: Entry)
    requires ShowsEntry(a, e) && ShowsEntry(b, e)
    ensures a == b
  {
  }
}

=== FILE: filter.dfy ===
/** The row filter of the servers table (`EscapeFilterString` and
    `UpdateServerListFilter` in MainForm.cs): the filter text is trimmed and
    escaped, and the filter selects the rows of the selected group whose
    chosen column contains the text. */
module ServerFilter {
  import opened Wrappers
  import opened Text
  import opened Records

  predicate IsQuote(c: char)
  {
    c == '\''
  }

  /** Number of occurrences of `c` in `s`. */
  function Count(s: string, c: char): nat
  {
    if s == [] then 0 else (if s[0] == c then 1 else 0) + Count(s[1..], c)
  }

  /** How one character is escaped: a quote is dropped, a backslash is
      doubled and a percent sign gets a backslash in front of it. */
  function EscapeChar(c: char): string
  {
    if c == '\'' then ""
    else if c == '\\' then "\\\\"
    else if c == '%' then "\\%"
    else [c]
  }

  /** `EscapeFilterString`. */
  function Escape(s: string): (r: string)
    ensures '\'' !in r
    ensures |r| == |s| - Count(s, '\'') + Count(s, '\\') + Count(s, '%')
  {
    if s == [] then [] else EscapeChar(s[0]) + Escape(s[1..])
  }

  /** Reads an escaped string back: a backslash stands for the character
      after it. */
  function Unescape(r: string): string
  {
    if r == [] then []
    else if r[0] == '\\' && |r| >= 2 then [r[1]] + Unescape(r[2..])
    else [r[0]] + Unescape(r[1..])
  }

  /** In an escaped string every backslash and every percent sign belongs
      to an escape pair, and there is no quote, so the text cannot close the
      quoted literal. */
  predicate WellEscaped(r: string)
    decreases |r|
  {
    if r == [] then true
    else if r[0] == '\\' then |r| >= 2 && (r[1] == '\\' || r[1] == '%') && WellEscaped(r[2..])
    else r[0] != '%' && r[0] != '\'' && WellEscaped(r[1..])
  }

  /** Escaping copies every character except the quotes, in order, and the
      result is well escaped. */
  lemma {:induction false} EscapeRoundTrip(s: string)
    ensures Unescape(Escape(s)) == FilterOut(s, IsQuote)
    ensures WellEscaped(Escape(s))
  {
    if s != [] {
      EscapeRoundTrip(s[1..]);
      var t := Escape(s[1..]);
      var e := EscapeChar(s[0]);
      assert Escape(s) == e + t;
      if s[0] == '\'' {
        assert FilterOut(s, IsQuote) == FilterOut(s[1..], IsQuote);
        assert e + t == t;
      } else {
        assert FilterOut(s, IsQuote) == [s[0]] + FilterOut(s[1..], IsQuote);
        if s[0] == '\\' || s[0] == '%' {
          assert (e + t)[0] == '\\' && (e + t)[1] == s[0] && (e + t)[2..] == t;
        } else {
          assert (e + t)[0] == s[0] && (e + t)[1..] == t;
        }
      }
    }
  }

  /** The escaped text is empty exactly when the text holds nothing but
      quotes. */
  lemma {:induction false} EscapeEmpty(s: string)
    ensures Escape(s) == [] <==> FilterOut(s, IsQuote) == []
  {
    if s != [] {
      EscapeEmpty(s[1..]);
    }
  }

  /** The column the radio buttons choose, by priority. */
  datatype FilterColumn = HostnameColumn | ModeColumn | LanguageColumn | AddressColumn

  function ChosenColumn(input: FilterInput): FilterColumn
  {
    if input.byHostname then HostnameColumn
    else if input.byMode then ModeColumn
    else if input.byLanguage then LanguageColumn
    else AddressColumn
  }

  function ColumnName(c: FilterColumn): string
  {
    match c
    case HostnameColumn => "Hostname"
    case ModeColumn => "Mode"
    case LanguageColumn => "Language"
    case AddressColumn => "IP and port"
  }

  const GROUP_PREFIX: string := "GroupID="
  const CLAUSE_TAIL: string := "%'"

  function ClauseHead(c: FilterColumn): string
  {
    " AND `" + ColumnName(c) + "` LIKE '%"
  }

  /** The filter `UpdateServerListFilter` builds for group `index`. */
  function BuildFilter(index: int32, input: FilterInput): string
  {
    var ft := Escape(Trim(input.text));
    var clause := if |ft| > 0 then ClauseHead(ChosenColumn(input)) + ft + CLAUSE_TAIL else "";
    GROUP_PREFIX + (IntToString(index) + clause)
  }

  /** What a filter says: a group index and, optionally, a column with the
      text its cells must contain. */
  datatype Clause = Clause(column: FilterColumn, text: string)
  datatype ParsedFilter = ParsedFilter(group: int32, clause: Option<Clause>)

  /** Position of the first space in `s`, or `|s|`. */
  function IndexOfSpace(s: string): (n: nat)
    ensures n <= |s|
    ensures forall k :: 0 <= k < n ==> s[k] != ' '
    ensures n < |s| ==> s[n] == ' '
  {
    if s == [] || s[0] == ' ' then 0 else 1 + IndexOfSpace(s[1..])
  }

  /** Reads a clause on column `c`. Its pattern must be well escaped, so a
      bare `%` or a lone backslash inside it is not read as text. */
  function MatchClause(t: string, c: FilterColumn): Option<Clause>
  {
    var h := ClauseHead(c);
    if && |t| >= |h| + |CLAUSE_TAIL| && t[..|h|] == h && t[|t| - |CLAUSE_TAIL|..] == CLAUSE_TAIL
       && WellEscaped(t[|h|..|t| - |CLAUSE_TAIL|])
    then Some(Clause(c, Unescape(t[|h|..|t| - |CLAUSE_TAIL|])))
    else None
  }

  function ParseClause(t: string): Option<Clause>
  {
    match MatchClause(t, HostnameColumn)
    case Some(cl) => Some(cl)
    case None =>
      match MatchClause(t, ModeColumn)
      case Some(cl) => Some(cl)
      case None =>
        match MatchClause(t, LanguageColumn)
        case Some(cl) => Some(cl)
        case None => MatchClause(t, AddressColumn)
  }

  /** Reads a filter of the shape `GroupID=<n>[ AND `<col>` LIKE '%<text>%']`. */
  function ParseFilter(r: string): Option<ParsedFilter>
  {
    if |r| < |GROUP_PREFIX| || r[..|GROUP_PREFIX|] != GROUP_PREFIX then None
    else ParseGroupAndClause(r[|GROUP_PREFIX|..])
  }

  /** Reads `<n>[ AND `<col>` LIKE '%<text>%']`. */
  function ParseGroupAndClause(rest: string): Option<ParsedFilter>
  {
    var n := IndexOfSpace(rest);
    match ParseInt32(rest[..n])
    case None => None
    case Some(g) =>
      if n == |rest| then Some(ParsedFilter(g, None))
      else
        match ParseClause(rest[n..])
        case None => None
        case Some(cl) => Some(ParsedFilter(g, Some(cl)))
  }

  lemma ClauseHeadsDiffer(t: string, c: FilterColumn, d: FilterColumn)
    requires c != d
    requires |t| >= |ClauseHead(c)| && t[..|ClauseHead(c)|] == ClauseHead(c)
    ensures MatchClause(t, d).None?
  {
    var hc := ClauseHead(c);
    var hd := ClauseHead(d);
    assert hc[6] != hd[6];
    assert t[6] == hc[6] by { assert t[..|hc|][6] == t[6]; }
    assert |t| < |hd| || t[..|hd|][6] != hd[6];
  }

  lemma ParseClauseOfHead(c: FilterColumn, ft: string)
    requires WellEscaped(ft)
    ensures ParseClause(ClauseHead(c) + ft + CLAUSE_TAIL) == Some(Clause(c, Unescape(ft)))
  {
    var h := ClauseHead(c);
    var t := h + ft + CLAUSE_TAIL;
    assert t[..|h|] == h;
    assert t[|t| - |CLAUSE_TAIL|..] == CLAUSE_TAIL;
    assert t[|h|..|t| - |CLAUSE_TAIL|] == ft;
    assert MatchClause(t, c) == Some(Clause(c, Unescape(ft)));
    if c != HostnameColumn { ClauseHeadsDiffer(t, c, HostnameColumn); }
    if c != ModeColumn { ClauseHeadsDiffer(t, c, ModeColumn); }
    if c != LanguageColumn { ClauseHeadsDiffer(t, c, LanguageColumn); }
  }

  /** The decimal form of an index holds digits and a minus sign only. */
  lemma IndexTextHasNoSpaceOrQuote(index: int32)
    ensures forall k :: 0 <= k < |IntToString(index)| ==> IntToString(index)[k] == '-' || IsDigit(IntToString(index)[k])
  {
    if index < 0 {
      assert IntToString(index) == "-" + NatToString(0 - index as int);
    }
  }

  lemma ParseFilterParts(num: string, tail: string, g: int32)
    requires ParseInt32(num) == Some(g)
    requires forall k :: 0 <= k < |num| ==> num[k] != ' '
    requires tail == [] || tail[0] == ' '
    ensures ParseFilter(GROUP_PREFIX + (num + tail)) ==
      if tail == [] then Some(ParsedFilter(g, None))
      else match ParseClause(tail)
           case None => None
           case Some(cl) => Some(ParsedFilter(g, Some(cl)))
  {
    var r := GROUP_PREFIX + (num + tail);
    assert r[..|GROUP_PREFIX|] == GROUP_PREFIX;
    assert r[|GROUP_PREFIX|..] == num + tail;
    assert ParseFilter(r) == ParseGroupAndClause(num + tail);
    ParseGroupThenClause(num, tail, g);
  }

  lemma ParseGroupThenClause(num: string, tail: string, g: int32)
    requires ParseInt32(num) == Some(g)
    requires forall k :: 0 <= k < |num| ==> num[k] != ' '
    requires tail == [] || tail[0] == ' '
    ensures ParseGroupAndClause(num + tail) ==
      if tail == [] then Some(ParsedFilter(g, None))
      else match ParseClause(tail)
           case None => None
           case Some(cl) => Some(ParsedFilter(g, Some(cl)))
  {
    var rest := num + tail;
    SpaceAfterNumber(num, tail);
    assert rest[..|num|] == num;
    assert rest[|num|..] == tail;
  }

  /** The first space of `num + tail` is where `tail` begins. */
  lemma SpaceAfterNumber(num: string, tail: string)
    requires forall k :: 0 <= k < |num| ==> num[k] != ' '
    requires tail == [] || tail[0] == ' '
    ensures IndexOfSpace(num + tail) == |num|
  {
    var rest := num + tail;
    if tail != [] {
      assert rest[|num|] == ' ';
    }
    assert forall k :: 0 <= k < |num| ==> rest[k] == num[k];
  }

  lemma ParseFilterWithClause(index: int32, c: FilterColumn, ft: string)
    requires ft != [] && WellEscaped(ft)
    ensures ParseFilter(GROUP_PREFIX + (IntToString(index) + (ClauseHead(c) + ft + CLAUSE_TAIL))) ==
      Some(ParsedFilter(index, Some(Clause(c, Unescape(ft)))))
  {
    ParseFormattedInt(index);
    IndexTextHasNoSpaceOrQuote(index);
    var tail := ClauseHead(c) + ft + CLAUSE_TAIL;
    assert tail[0] == ' ';
    ParseFilterParts(IntToString(index), tail, index);
    ParseClauseOfHead(c, ft);
  }

  lemma ParseFilterWithoutClause(index: int32)
    ensures ParseFilter(GROUP_PREFIX + (IntToString(index) + "")) == Some(ParsedFilter(index, None))
  {
    ParseFormattedInt(index);
    IndexTextHasNoSpaceOrQuote(index);
    ParseFilterParts(IntToString(index), "", index);
  }

  lemma ParseBuiltFilterEscaped(index: int32, input: FilterInput)
    ensures var ft := Escape(Trim(input.text));
      ParseFilter(BuildFilter(index, input)) ==
        Some(ParsedFilter(index, if ft == [] then None else Some(Clause(ChosenColumn(input), Unescape(ft)))))
  {
    var ft := Escape(Trim(input.text));
    EscapeRoundTrip(Trim(input.text));
    if |ft| > 0 {
      ParseFilterWithClause(index, ChosenColumn(input), ft);
    } else {
      ParseFilterWithoutClause(index);
    }
  }

  /** The filter names the group as its first condition and, when the
      trimmed text holds more than quotes, a clause on the chosen column
      whose pattern reads back as that text without its quotes. */
  lemma ParseBuiltFilter(index: int32, input: FilterInput)
    ensures var text := FilterOut(Trim(input.text), IsQuote);
      ParseFilter(BuildFilter(index, input)) ==
        Some(ParsedFilter(index, if text == [] then None else Some(Clause(ChosenColumn(input), text))))
  {
    var t := Trim(input.text);
    EscapeEmpty(t);
    EscapeRoundTrip(t);
    ParseBuiltFilterEscaped(index, input);
  }

  lemma ClauseHeadQuote(c: FilterColumn)
    ensures Count(ClauseHead(c), '\'') == 1
  {
    var name := ColumnName(c);
    NoneCounted(" AND `", '\'');
    NoneCounted(name, '\'');
    CountOne("` LIKE '%", '\'', 7);
    CountAppend(" AND `", name, '\'');
    CountAppend(" AND `" + name, "` LIKE '%", '\'');
  }

  /** The filter contains a quote only as the two delimiters of the
      pattern literal. */
  lemma FilterQuotes(index: int32, input: FilterInput)
    ensures Count(BuildFilter(index, input), '\'') == if Escape(Trim(input.text)) == [] then 0 else 2
  {
    var ft := Escape(Trim(input.text));
    FilterQuotesOf(index, ChosenColumn(input), ft);
  }

  lemma FilterQuotesOf(index: int32, c: FilterColumn, ft: string)
    requires '\'' !in ft
    ensures var clause := if |ft| > 0 then ClauseHead(c) + ft + CLAUSE_TAIL else "";
      Count(GROUP_PREFIX + (IntToString(index) + clause), '\'') == if ft == [] then 0 else 2
  {
    var num := IntToString(index);
    var clause := if |ft| > 0 then ClauseHead(c) + ft + CLAUSE_TAIL else "";
    IndexTextHasNoSpaceOrQuote(index);
    NoneCounted(GROUP_PREFIX, '\'');
    NoneCounted(num, '\'');
    CountAppend(num, clause, '\'');
    CountAppend(GROUP_PREFIX, num + clause, '\'');
    if |ft| > 0 {
      ClauseQuotes(c, ft);
    }
  }

  /** A clause with a quote-free pattern holds exactly the two quotes that
      delimit the pattern. */
  lemma ClauseQuotes(c: FilterColumn, ft: string)
    requires '\'' !in ft
    ensures Count(ClauseHead(c) + ft + CLAUSE_TAIL, '\'') == 2
  {
    var h := ClauseHead(c);
    ClauseHeadQuote(c);
    NoneCounted(ft, '\'');
    CountOne(CLAUSE_TAIL, '\'', 1);
    CountAppend(h, ft, '\'');
    CountAppend(h + ft, CLAUSE_TAIL, '\'');
  }

  lemma {:induction false} CountAppend(a: string, b: string, c: char)
    ensures Count(a + b, c) == Count(a, c) + Count(b, c)
  {
    if a == [] {
      assert a + b == b;
    } else {
      assert (a + b)[0] == a[0] && (a + b)[1..] == a[1..] + b;
      CountAppend(a[1..], b, c);
    }
  }

  lemma {:induction false} NoneCounted(s: string, c: char)
    requires forall k :: 0 <= k < |s| ==> s[k] != c
    ensures Count(s, c) == 0
  {
    if s != [] {
      NoneCounted(s[1..], c);
    }
  }

  lemma {:induction false} CountOne(s: string, c: char, i: nat)
    requires i < |s| && s[i] == c
    requires forall k :: 0 <= k < |s| && k != i ==> s[k] != c
    ensures Count(s, c) == 1
  {
    if i == 0 {
      NoneCounted(s[1..], c);
    } else {
      CountOne(s[1..], c, i - 1);
    }
  }

  /** `UpdateServerListFilter`, run after the selection or the filter
      controls change: the table filter becomes the filter for the selected
      group and the current filter input. */
  function UpdateServerListFilter(f: Form): (r: Form)
    ensures var text := FilterOut(Trim(f.filterInput.text), IsQuote);
      ParseFilter(r.filter) ==
        Some(ParsedFilter(f.selectedIndex, if text == [] then None else Some(Clause(ChosenColumn(f.filterInput), text))))
    ensures r == f.(filter := r.filter)
  {
    ParseBuiltFilter(f.selectedIndex, f.filterInput);
    f.(filter := BuildFilter(f.selectedIndex, f.filterInput))
  }

  /** The filter text box or a column radio button changed. */
  function FilterInputChanged(f: Form, input: FilterInput): (r: Form)
    ensures r.filterInput == input
    ensures var text := FilterOut(Trim(input.text), IsQuote);
      ParseFilter(r.filter) ==
        Some(ParsedFilter(f.selectedIndex, if text == [] then None else Some(Clause(ChosenColumn(input), text))))
    ensures r == f.(filterInput := input, filter := r.filter)
  {
    UpdateServerListFilter(f.(filterInput := input))
  }
}

=== FILE: fps.dfy ===
/** The FPS-limit text field and the track bar it mirrors. Typing in the
    field parses the text as a C# `int`; a number is clamped into the track
    bar's range, anything else falls back to the minimum, and the field is
    rewritten to show the value the track bar takes. */
module FpsLimit {
  import opened Wrappers
  import opened Text

  /** The field's text and the track bar's value after the handler. */
  datatype FpsState = FpsState(text: string, value: int32)

  /** The text-changed handler of the FPS-limit field. A track bar always
      has `Minimum <= Maximum`. */
  function FpsLimitTextChanged(text: string, minimum: int32, maximum: int32): (r: FpsState)
    requires minimum <= maximum
    // the track bar receives a value in its range, and the field shows it
    ensures minimum <= r.value <= maximum
    ensures r.text == IntToString(r.value)
    ensures ParseInt32(r.text) == Some(r.value)
    // text that is not an int resets to the minimum
    ensures ParseInt32(text).None? ==> r.value == minimum
    // a number in range is taken as it is; one outside is clamped to the
    // nearer bound
    ensures ParseInt32(text).Some? && minimum <= ParseInt32(text).value <= maximum ==>
              r.value == ParseInt32(text).value
    ensures ParseInt32(text).Some? && ParseInt32(text).value < minimum ==> r.value == minimum
    ensures ParseInt32(text).Some? && ParseInt32(text).value > maximum ==> r.value == maximum
    // text that already shows an in-range value is left alone
    ensures ParseInt32(text).Some? && minimum <= ParseInt32(text).value <= maximum
            && text == IntToString(ParseInt32(text).value) ==>
              r.text == text
  {
    match ParseInt32(text)
    case Some(v0) =>
      var v := if v0 < minimum then minimum else if v0 > maximum then maximum else v0;
      var shown := IntToString(v);
      ParseFormattedInt(v);
      FpsState(if text != shown then shown else text, v)
    case None =>
      ParseFormattedInt(minimum);
      FpsState(IntToString(minimum), minimum)
  }

  /** Rewriting the field raises the handler once more, on the text it has
      just written; that second run changes nothing, so the field settles
      after one rewrite. */
  lemma FpsLimitSettles(text: string, minimum: int32, maximum: int32)
    requires minimum <= maximum
    ensures var r := FpsLimitTextChanged(text, minimum, maximum);
      FpsLimitTextChanged(r.text, minimum, maximum) == r
  {
  }
}

=== FILE: groups.dfy ===
/** The server-list connectors ("groups") of the main form: selecting one
    (`SelectAPI`), clearing them all (`ClearAPIs`), the favourite-list
    queries (`IsInFavouriteList`, `FavouriteLists`) and adding a server to or
    removing it from a favourite list. Dialogs, message boxes and the
    persistence behind `ServerListIO` are not modelled: the persisted
    dictionary is the connector's `servers` field. */
module Groups {
  import opened Wrappers
  import opened Text
  import opened Records
  import opened ServerFilter
  import Dispatcher
  import Drain

  /** `KeyValuePair(server, index)` for every server of a dictionary, in
      its enumeration order. */
  function Tagged(servers: seq<Server>, index: int32): (r: seq<Entry>)
    ensures |r| == |servers|
    ensures forall i :: 0 <= i < |servers| ==> r[i] == Entry(servers[i], index)
  {
    seq(|servers|, i requires 0 <= i < |servers| => Entry(servers[i], index))
  }

  /** The combo box selection changed to `index` (-1 when nothing is
      selected): `selectedAPIIndex` follows it, then `SelectAPI` runs. */
  function SelectAPI(f: Form, index: int32): (r: Form)
    ensures r.selectedIndex == index
    // an out-of-range index changes nothing else
    ensures !(0 <= index < |f.apis|) ==> r == f.(selectedIndex := index)
    // an in-range index re-arms the first-row query and refreshes the filter
    // for the group and the current filter input; nothing else changes
    // but the queue and the group's loaded flag
    ensures 0 <= index < |f.apis| ==>
              r == f.(selectedIndex := index, queryFirstServer := true,
                      pending := r.pending, apis := r.apis, filter := r.filter)
    ensures 0 <= index < |f.apis| ==>
              var text := FilterOut(Trim(f.filterInput.text), IsQuote);
              ParseFilter(r.filter) ==
                Some(ParsedFilter(index, if text == [] then None else Some(Clause(ChosenColumn(f.filterInput), text))))
    // the group's servers are enqueued, tagged with its index, only while it
    // is not loaded, and it is marked loaded
    ensures 0 <= index < |f.apis| && f.apis[index].notLoaded ==>
              && r.pending == f.pending + Tagged(f.apis[index].servers, index)
              && r.apis == f.apis[index := f.apis[index].(notLoaded := false)]
    ensures 0 <= index < |f.apis| && !f.apis[index].notLoaded ==>
              r.pending == f.pending && r.apis == f.apis
    // the ready list, the rows and the address index are untouched
    ensures r.ready == f.ready && r.rows == f.rows && r.registered == f.registered
  {
    var f1 := f.(selectedIndex := index);
    if 0 <= index < |f.apis| then
      var slc := f.apis[index];
      var f2 :=
        if slc.notLoaded
        then f1.(apis := f.apis[index := slc.(notLoaded := false)],
                 pending := f.pending + Tagged(slc.servers, index))
        else f1;
      UpdateServerListFilter(f2.(queryFirstServer := true))
    else f1
  }

  /** Selecting a group a second time enqueues nothing: the pending list
      grows by the group's servers once, however often it is selected. */
  lemma ReselectAddsNothing(f: Form, index: int32)
    requires 0 <= index < |f.apis|
    ensures SelectAPI(SelectAPI(f, index), index).pending == SelectAPI(f, index).pending
    ensures f.apis[index].notLoaded ==>
              SelectAPI(SelectAPI(f, index), index).pending == f.pending + Tagged(f.apis[index].servers, index)
    ensures !f.apis[index].notLoaded ==> SelectAPI(SelectAPI(f, index), index).pending == f.pending
  {
  }

  /** `ClearAPIs`: deselects and empties every collection. */
  function ClearAPIs(f: Form): (r: Form)
    ensures r.selectedIndex == -1
    ensures r.apis == [] && r.pending == [] && r.ready == [] && r.rows == []
    ensures r.registered == map[]
    ensures r.queryFirstServer == f.queryFirstServer && r.filterInput == f.filterInput && r.filter == f.filter
  {
    f.(selectedIndex := -1, apis := [], pending := [], ready := [], registered := map[], rows := [])
  }

  /** After clearing, the background pass and the timer tick have nothing
      to do, no favourite list is selected, and no selection enqueues
      anything. */
  lemma ClearedFormIsQuiet(f: Form, enterRow: nat -> bool, index: int32)
    ensures var c := ClearAPIs(f);
      && Dispatcher.DispatchPass(c).form == c
      && Dispatcher.DispatchPass(c).sent == []
      && Drain.TimerTick(c, enterRow).form == c
      && !IsInFavouriteList(c.apis, c.selectedIndex)
      && FavouriteLists(c.apis) == []
      && SelectAPI(c, index) == c.(selectedIndex := index)
  {
    var c := ClearAPIs(f);
    var p := Dispatcher.DispatchPass(c);
    assert |p.form.ready[|c.ready|..]| == 0 by {
      assert multiset(p.form.ready[|c.ready|..]) == multiset{};
    }
    assert p.form.ready == p.form.ready[..|c.ready|] + p.form.ready[|c.ready|..];
    assert |p.form.pending| == 0 by {
      assert multiset(p.form.pending) == multiset{};
    }
    var t := Drain.TimerTick(c, enterRow).form;
  }

  /** `IsInFavouriteList`: the selected connector exists and is a favourite
      list. */
  predicate IsInFavouriteList(apis: seq<Connector>, selectedIndex: int)
  {
    0 <= selectedIndex < |apis| && IsFavouriteType(apis[selectedIndex].listType)
  }

  /** An `IndexedServerListConnector`: a connector and its index. */
  datatype IndexedConnector = IndexedConnector(connector: Connector, index: int)

  function ListedIndices(r: seq<IndexedConnector>): set<int>
  {
    set k | 0 <= k < |r| :: r[k].index
  }

  /** The favourite lists among the first `n` connectors, in index order. */
  function FavouritesUpTo(apis: seq<Connector>, n: nat): (r: seq<IndexedConnector>)
    requires n <= |apis|
    ensures forall k :: 0 <= k < |r| ==>
              && 0 <= r[k].index < n
              && r[k].connector == apis[r[k].index]
              && IsFavouriteType(r[k].connector.listType)
    ensures forall k, l :: 0 <= k < l < |r| ==> r[k].index < r[l].index
    ensures forall i :: 0 <= i < n ==> (IsFavouriteType(apis[i].listType) <==> i in ListedIndices(r))
  {
    if n == 0 then []
    else
      var prev := FavouritesUpTo(apis, n - 1);
      if IsFavouriteType(apis[n - 1].listType) then
        var x := IndexedConnector(apis[n - 1], n - 1);
        ListedIndicesAppend(prev, x);
        prev + [x]
      else prev
  }

  lemma ListedIndicesAppend(r: seq<IndexedConnector>, c: IndexedConnector)
    ensures ListedIndices(r + [c]) == ListedIndices(r) + {c.index}
    ensures (r + [c])[|r|] == c
    ensures forall k :: 0 <= k < |r| ==> (r + [c])[k] == r[k]
  {
    var t := r + [c];
    assert t[|r|] == c;
    forall k | 0 <= k < |r| ensures t[k] == r[k] { }
  }

  /** `FavouriteLists`: every favourite connector with its index, in index
      order, and nothing else. */
  function FavouriteLists(apis: seq<Connector>): seq<IndexedConnector>
  {
    FavouritesUpTo(apis, |apis|)
  }

  /** The selection is in a favourite list exactly when its index is one of
      the listed favourite lists. */
  lemma InFavouriteListIffListed(apis: seq<Connector>, selectedIndex: int)
    ensures IsInFavouriteList(apis, selectedIndex) <==> selectedIndex in ListedIndices(FavouriteLists(apis))
  {
  }

  /** Whether a table row belongs to group `index`. */
  function InGroup(index: int32): Row -> bool
  {
    (row: Row) => row.group == index
  }

  /** `ReloadFavourites`: deletes the table rows of group `index` and
      enqueues every server of the list again, tagged with `index`. */
  function ReloadFavourites(f: Form, servers: seq<Server>, index: int32): (r: Form)
    ensures forall row :: row in r.rows <==> row in f.rows && row.group != index
    // the kept rows and the deleted rows of the group merge back into the
    // old rows, so order and repeated rows are kept
    ensures Interleaving(r.rows, Filter(f.rows, InGroup(index)), f.rows)
    ensures r.pending == f.pending + Tagged(servers, index)
    ensures r == f.(rows := r.rows, pending := r.pending)
  {
    var rows := FilterOut(f.rows, InGroup(index));
    assert forall row :: row in f.rows && row.group != index ==> row in rows by {
      forall row | row in f.rows && row.group != index ensures row in rows {
        FilterOutKeeps(f.rows, InGroup(index), row);
      }
    }
    FilterInterleaves(f.rows, InGroup(index));
    f.(rows := rows, pending := f.pending + Tagged(servers, index))
  }

  /** Removes the entry under `key` from a dictionary. */
  function RemoveKey(servers: seq<Server>, key: string): (r: seq<Server>)
    ensures UniqueKeys(servers) ==> UniqueKeys(r)
    ensures Keys(r) == Keys(servers) - {key}
    ensures forall s :: s in r <==> s in servers && s.address != key
  {
    if servers == [] then []
    else if servers[0].address == key then RemoveKey(servers[1..], key)
    else [servers[0]] + RemoveKey(servers[1..], key)
  }

  datatype FavouriteError = AlreadyInFavourites | NotInFavourites

  /** Adds `fav` (the favourite record built for the chosen server or
      address) to favourite list `listIndex`, keyed by its address; a key
      already present is refused. */
  function AddToFavourites(f: Form, listIndex: int32, fav: Server): (r: Result<Form, FavouriteError>)
    requires 0 <= listIndex < |f.apis|
    ensures r.Err? <==> fav.address in Keys(f.apis[listIndex].servers)
    ensures r.Err? ==> r.error == AlreadyInFavourites
    ensures r.Ok? ==>
              && |r.value.apis| == |f.apis|
              && r.value.apis[listIndex].servers == f.apis[listIndex].servers + [fav]
              && Keys(r.value.apis[listIndex].servers) == Keys(f.apis[listIndex].servers) + {fav.address}
              && (UniqueKeys(f.apis[listIndex].servers) ==> UniqueKeys(r.value.apis[listIndex].servers))
              && (forall i :: 0 <= i < |f.apis| && i != listIndex as int ==> r.value.apis[i] == f.apis[i])
              && r.value.pending == f.pending + Tagged(r.value.apis[listIndex].servers, listIndex)
              && (forall row :: row in r.value.rows <==> row in f.rows && row.group != listIndex)
              && Interleaving(r.value.rows, Filter(f.rows, InGroup(listIndex)), f.rows)
    // only the list's dictionary, the rows and the pending list change
    ensures r.Ok? ==>
              && r.value == f.(apis := r.value.apis, rows := r.value.rows, pending := r.value.pending)
              && r.value.apis[listIndex] == f.apis[listIndex].(servers := r.value.apis[listIndex].servers)
  {
    var slc := f.apis[listIndex];
    if fav.address in Keys(slc.servers) then Err(AlreadyInFavourites)
    else
      var servers := slc.servers + [fav];
      assert fav in servers;
      Ok(ReloadFavourites(f.(apis := f.apis[listIndex := slc.(servers := servers)]), servers, listIndex))
  }

  /** Removes the selected server from the selected favourite list, when
      the user confirms and the list holds its address. Outside a favourite
      list the request is refused. */
  function RemoveSelectionFromFavourites(f: Form, selected: Option<Server>, confirmed: bool): (r: Result<Form, FavouriteError>)
    ensures r.Err? <==> !IsInFavouriteList(f.apis, f.selectedIndex)
    ensures r.Err? ==> r.error == NotInFavourites
    ensures r.Ok? && (selected.None? || !confirmed) ==> r.value == f
    ensures r.Ok? && selected.Some? && selected.value.address !in Keys(f.apis[f.selectedIndex].servers) ==>
              r.value == f
    ensures r.Ok? ==> |r.value.apis| == |f.apis|
    ensures r.Ok? && selected.Some? && confirmed && selected.value.address in Keys(f.apis[f.selectedIndex].servers) ==>
              var servers := f.apis[f.selectedIndex].servers;
              var servers' := r.value.apis[f.selectedIndex].servers;
              && Keys(servers') == Keys(servers) - {selected.value.address}
              && (forall s :: s in servers' <==> s in servers && s.address != selected.value.address)
              && (UniqueKeys(servers) ==> UniqueKeys(servers'))
              && (forall i :: 0 <= i < |f.apis| && i != f.selectedIndex as int ==> r.value.apis[i] == f.apis[i])
              && r.value.pending == f.pending + Tagged(servers', f.selectedIndex)
              && (forall row :: row in r.value.rows <==> row in f.rows && row.group != f.selectedIndex)
              && Interleaving(r.value.rows, Filter(f.rows, InGroup(f.selectedIndex)), f.rows)
    // only the list's dictionary, the rows and the pending list change
    ensures r.Ok? ==>
              && r.value == f.(apis := r.value.apis, rows := r.value.rows, pending := r.value.pending)
              && r.value.apis[f.selectedIndex] == f.apis[f.selectedIndex].(servers := r.value.apis[f.selectedIndex].servers)
  {
    if !IsInFavouriteList(f.apis, f.selectedIndex) then Err(NotInFavourites)
    else if selected.None? || !confirmed then Ok(f)
    else
      var index := f.selectedIndex;
      var slc := f.apis[index];
      var key := selected.value.address;
      if key in Keys(slc.servers) then
        var servers := RemoveKey(slc.servers, key);
        Ok(ReloadFavourites(f.(apis := f.apis[index := slc.(servers := servers)]), servers, index))
      else Ok(f)
  }

  /** Removing a key present once shortens the dictionary by one. */
  lemma {:induction false} RemoveKeyLength(servers: seq<Server>, key: string)
    requires UniqueKeys(servers) && key in Keys(servers)
    ensures |RemoveKey(servers, key)| == |servers| - 1
  {
    assert servers != [];
    if servers[0].address == key {
      NotInRest(servers, key);
      RemoveAbsentKey(servers[1..], key);
    } else {
      var s :| s in servers && s.address == key;
      assert s in servers[1..];
      RemoveKeyLength(servers[1..], key);
    }
  }

  lemma NotInRest(servers: seq<Server>, key: string)
    requires UniqueKeys(servers) && servers != [] && servers[0].address == key
    ensures key !in Keys(servers[1..])
  {
    forall s | s in servers[1..] ensures s.address != key {
      var j :| 0 <= j < |servers[1..]| && servers[1..][j] == s;
      assert servers[j + 1] == s;
    }
  }

  lemma {:induction false} RemoveAbsentKey(servers: seq<Server>, key: string)
    requires key !in Keys(servers)
    ensures RemoveKey(servers, key) == servers
  {
    if servers != [] {
      assert servers[0] in servers;
      assert Keys(servers[1..]) <= Keys(servers);
      RemoveAbsentKey(servers[1..], key);
    }
  }

  /** Adding a server to a favourite list and then removing it again gives
      back the list as it was. */
  lemma AddThenRemoveRestores(f: Form, listIndex: int32, fav: Server)
    requires 0 <= listIndex < |f.apis|
    requires AddToFavourites(f, listIndex, fav).Ok?
    ensures RemoveKey(AddToFavourites(f, listIndex, fav).value.apis[listIndex].servers, fav.address)
            == f.apis[listIndex].servers
  {
    var servers := f.apis[listIndex].servers;
    RemoveAbsentKey(servers, fav.address);
    RemoveKeyAppend(servers, fav, fav.address);
  }

  lemma {:induction false} RemoveKeyAppend(servers: seq<Server>, s: Server, key: string)
    ensures RemoveKey(servers + [s], key) == RemoveKey(servers, key) + RemoveKey([s], key)
  {
    if servers == [] {
      assert servers + [s] == [s];
    } else {
      assert (servers + [s])[0] == servers[0] && (servers + [s])[1..] == servers[1..] + [s];
      RemoveKeyAppend(servers[1..], s, key);
    }
  }
}

=== FILE: records.dfy ===
/** The state the main form keeps about server lists: server records, the
    (server, group index) pairs that travel from the pending list to the
    ready list, the server-list connectors ("groups"), the rows of the
    server table, and the form itself as one immutable record. */
module Records {
  import opened Wrappers
  import opened Text

  const UINT32_LIMIT: int := 0x1_0000_0000
  type uint32 = x: int | 0 <= x < UINT32_LIMIT

  /** `++` on a C# `uint`: wraps to 0 past 2^32 - 1. */
  function Inc32(x: uint32): uint32
  {
    (x + 1) % UINT32_LIMIT
  }

  /** The four independently fetched facets of a server's state. */
  datatype RequestKind = Ping | Information | Rules | Clients

  /** The run-time class of a server record: a server queried over the
      network, a `FavouriteServer`, or a `BackendRESTfulServer`. */
  datatype ServerVariant = Queried | Favourite | BackendRESTful

  /** A server record as seen at one instant: its address key
      (`IPPortString`), its class, the request kinds whose data has been
      fetched, and the decoded payload of those kinds. */
  datatype Server = Server(
    address: string,
    variant: ServerVariant,
    fetched: set<RequestKind>,
    ping: uint32,
    hostname: string,
    playerCount: nat,
    maxPlayers: nat,
    gamemode: string,
    language: string)

  predicate IsDataFetched(s: Server, kind: RequestKind)
  {
    kind in s.fetched
  }

  /** A `KeyValuePair<Server, int>` of the pending and ready lists: a server
      and the index of the connector it was listed by. */
  datatype Entry = Entry(server: Server, group: int32)

  /** The players cell: a `PlayerCountString` or a placeholder text. */
  datatype PlayersCell = PlayerCount(count: nat, max: nat) | PlayersText(text: string)

  /** One row of the servers table: group id, ping, hostname, players, mode,
      language, and the address in the last column. */
  datatype Row = Row(
    group: int32,
    ping: uint32,
    hostname: string,
    players: PlayersCell,
    mode: string,
    language: string,
    address: string)

  /** Values shown for data that has not been fetched yet. */
  const UNKNOWN_PING: uint32 := 1000
  const UNKNOWN_TEXT: string := "-"
  const UNKNOWN_PLAYERS: string := "0/0"

  /** Server-list kinds; only the two favourite kinds are told apart. */
  datatype ListType = Favourites | LegacyFavourites | OtherList

  predicate IsFavouriteType(t: ListType)
  {
    t == Favourites || t == LegacyFavourites
  }

  /** A `ServerListConnector`: one configured server list. Its server
      dictionary (`ServerListIO`) is a sequence in insertion order, keyed by
      each server's address. */
  datatype Connector = Connector(
    name: string,
    listType: ListType,
    notLoaded: bool,
    serverCount: uint32,
    servers: seq<Server>)

  /** The keys of a server dictionary. */
  function Keys(servers: seq<Server>): set<string>
  {
    set s | s in servers :: s.address
  }

  /** A dictionary never holds two servers under one key. */
  ghost predicate UniqueKeys(servers: seq<Server>)
  {
    forall i, j :: 0 <= i < j < |servers| ==> servers[i].address != servers[j].address
  }

  /** What the filter controls hold: the filter text and the three radio
      buttons that pick the column (the fourth, address, is the default). */
  datatype FilterInput = FilterInput(text: string, byHostname: bool, byMode: bool, byLanguage: bool)

  /** The main form's server-list bookkeeping. */
  datatype Form = Form(
    apis: seq<Connector>,
    selectedIndex: int32,
    pending: seq<Entry>,
    ready: seq<Entry>,
    registered: map<string, Server>,
    rows: seq<Row>,
    queryFirstServer: bool,
    filterInput: FilterInput,
    filter: string)

  /** Map lookup as an option. */
  function Lookup<K, V>(m: map<K, V>, k: K): Option<V>
  {
    if k in m then Some(m[k]) else None
  }

  /** The elements of `s` that satisfy `p`, in order. */
  function Filter<T>(s: seq<T>, p: T -> bool): (r: seq<T>)
    ensures |r| <= |s|
    ensures forall x :: x in r ==> x in s && p(x)
  {
    if s == [] then [] else (if p(s[0]) then [s[0]] else []) + Filter(s[1..], p)
  }

  /** The elements of `s` that do not satisfy `p`, in order. */
  function FilterOut<T>(s: seq<T>, p: T -> bool): (r: seq<T>)
    ensures |r| <= |s|
    ensures forall x :: x in r ==> x in s && !p(x)
  {
    if s == [] then [] else (if p(s[0]) then [] else [s[0]]) + FilterOut(s[1..], p)
  }

  /** `FilterOut` keeps every element that fails the predicate. */
  lemma {:induction false} FilterOutKeeps<T>(s: seq<T>, p: T -> bool, x: T)
    requires x in s && !p(x)
    ensures x in FilterOut(s, p)
  {
    if s[0] != x {
      FilterOutKeeps(s[1..], p, x);
    }
  }

  /** `c` is a merge of `a` and `b`: every element of `c` is taken, in
      order, from the front of `a` or from the front of `b`, and nothing is
      left over. */
  ghost predicate Interleaving<T>(a: seq<T>, b: seq<T>, c: seq<T>)
    decreases |c|
  {
    if c == [] then a == [] && b == []
    else
      || (|a| > 0 && a[0] == c[0] && Interleaving(a[1..], b, c[1..]))
      || (|b| > 0 && b[0] == c[0] && Interleaving(a, b[1..], c[1..]))
  }

  /** Splitting a sequence by a predicate loses nothing, duplicates nothing
      and keeps the relative order on both sides. */
  lemma FilterPartitions<T>(s: seq<T>, p: T -> bool)
    ensures Interleaving(FilterOut(s, p), Filter(s, p), s)
    ensures multiset(FilterOut(s, p)) + multiset(Filter(s, p)) == multiset(s)
  {
    FilterInterleaves(s, p);
    InterleavingMultiset(FilterOut(s, p), Filter(s, p), s);
  }

  lemma {:induction false} FilterInterleaves<T>(s: seq<T>, p: T -> bool)
    ensures Interleaving(FilterOut(s, p), Filter(s, p), s)
  {
    if s != [] {
      FilterInterleaves(s[1..], p);
      var a := FilterOut(s, p);
      var b := Filter(s, p);
      if p(s[0]) {
        assert a == FilterOut(s[1..], p);
        assert b == [s[0]] + Filter(s[1..], p);
        assert b[1..] == Filter(s[1..], p);
      } else {
        assert b == Filter(s[1..], p);
        assert a == [s[0]] + FilterOut(s[1..], p);
        assert a[1..] == FilterOut(s[1..], p);
      }
    }
  }

  /** A merge keeps exactly the elements of both parts. */
  lemma {:induction false} InterleavingMultiset<T>(a: seq<T>, b: seq<T>, c: seq<T>)
    requires Interleaving(a, b, c)
    ensures multiset(a) + multiset(b) == multiset(c)
    decreases |c|
  {
    if c != [] {
      assert c == [c[0]] + c[1..];
      if |a| > 0 && a[0] == c[0] && Interleaving(a[1..], b, c[1..]) {
        InterleavingMultiset(a[1..], b, c[1..]);
        assert a == [a[0]] + a[1..];
      } else {
        InterleavingMultiset(a, b[1..], c[1..]);
        assert b == [b[0]] + b[1..];
      }
    }
  }
}

=== FILE: text.dfy ===
/** Character-level helpers the form relies on from the .NET base library:
    `String.Trim`, `Int32.ToString` and `Int32.TryParse`, restated over
    `seq<char>`. */
module Text {
  import opened Wrappers

  const INT32_MIN: int := -0x8000_0000
  const INT32_MAX: int := 0x7FFF_FFFF
  type int32 = x: int | INT32_MIN <= x <= INT32_MAX

  /** `Char.IsWhiteSpace`: the Unicode space separators plus the control
      characters U+0009..U+000D, U+0085 and the line/paragraph separators. */
  predicate IsWhiteSpace(c: char)
  {
    || ('\U{0009}' <= c <= '\U{000D}')
    || c == ' ' || c == '\U{0085}' || c == '\U{00A0}' || c == '\U{1680}'
    || ('\U{2000}' <= c <= '\U{200A}')
    || c == '\U{2028}' || c == '\U{2029}' || c == '\U{202F}' || c == '\U{205F}'
    || c == '\U{3000}'
  }

  /** The white space `Int32.TryParse` skips around a number
      (`NumberStyles.Integer`): U+0009..U+000D and the space. */
  predicate IsNumberWhite(c: char)
  {
    ('\U{0009}' <= c <= '\U{000D}') || c == ' '
  }

  /** Number of leading characters of `s` that satisfy `white`. */
  function LeadingCount(s: string, white: char -> bool): (n: nat)
    ensures n <= |s|
    ensures forall k :: 0 <= k < n ==> white(s[k])
    ensures n == |s| || !white(s[n])
  {
    if |s| > 0 && white(s[0]) then 1 + LeadingCount(s[1..], white) else 0
  }

  /** Number of trailing characters of `s` that satisfy `white`. */
  function TrailingCount(s: string, white: char -> bool): (n: nat)
    ensures n <= |s|
    ensures forall k :: |s| - n <= k < |s| ==> white(s[k])
    ensures n == |s| || !white(s[|s| - n - 1])
  {
    if |s| > 0 && white(s[|s| - 1]) then 1 + TrailingCount(s[..|s| - 1], white) else 0
  }

  /** Drops the white characters at both ends of `s`: what is left is the
      slice that starts at the first non-white character, and it is empty
      exactly when `s` is all white. */
  function TrimBy(s: string, white: char -> bool): (r: string)
    ensures r == [] || (!white(r[0]) && !white(r[|r| - 1]))
    ensures r == [] <==> forall k :: 0 <= k < |s| ==> white(s[k])
    ensures var i := LeadingCount(s, white); i + |r| <= |s| && r == s[i..i + |r|]
    ensures forall k :: LeadingCount(s, white) + |r| <= k < |s| ==> white(s[k])
  {
    var i := LeadingCount(s, white);
    if i == |s| then []
    else
      var j := TrailingCount(s[i..], white);
      assert forall k :: |s| - j <= k < |s| ==> white(s[k]) by {
        forall k | |s| - j <= k < |s| ensures white(s[k]) {
          assert s[i..][k - i] == s[k];
        }
      }
      s[i..|s| - j]
  }

  /** `String.Trim()`. */
  function Trim(s: string): string
  {
    TrimBy(s, IsWhiteSpace)
  }

  predicate IsDigit(c: char)
  {
    '0' <= c <= '9'
  }

  function DigitChar(d: nat): (c: char)
    requires d < 10
    ensures IsDigit(c)
  {
    "0123456789"[d]
  }

  function DigitValue(c: char): (d: nat)
    requires IsDigit(c)
    ensures d < 10 && DigitChar(d) == c
  {
    (c as int - '0' as int) as nat
  }

  /** Decimal value of a string of ASCII digits, most significant first. */
  function DigitsValue(s: string): nat
    requires forall k :: 0 <= k < |s| ==> IsDigit(s[k])
  {
    if s == [] then 0 else DigitsValue(s[..|s| - 1]) * 10 + DigitValue(s[|s| - 1])
  }

  /** Shortest decimal representation of a natural number. */
  function NatToString(n: nat): (r: string)
    ensures |r| > 0 && forall k :: 0 <= k < |r| ==> IsDigit(r[k])
    // no leading zero: only zero itself starts with '0'
    ensures r[0] == '0' <==> n == 0
  {
    if n < 10 then
      assert DigitValue(DigitChar(n)) == n;
      [DigitChar(n)]
    else
      var p := NatToString(n / 10);
      assert (p + [DigitChar(n % 10)])[0] == p[0];
      p + [DigitChar(n % 10)]
  }

  /** `Int32.ToString()` under the invariant culture: a minus sign for
      negative values, then the digits. */
  function IntToString(n: int): (r: string)
    ensures |r| > 0 && IsDigit(r[|r| - 1])
    ensures r[0] == '-' || IsDigit(r[0])
    ensures (r[0] == '-') <==> n < 0
    // the shortest form: zero is "0", and no other number has a leading zero
    ensures n == 0 ==> r == "0"
    ensures n != 0 ==> r[if n < 0 then 1 else 0] != '0'
  {
    if n < 0 then "-" + NatToString(-n) else NatToString(n)
  }

  /** `Int32.TryParse(s, out v)` with `NumberStyles.Integer`: optional
      surrounding white space, an optional sign, at least one digit, and a
      value inside the 32-bit range; anything else fails. */
  function ParseInt32(s: string): Option<int32>
  {
    ParseTrimmed(TrimBy(s, IsNumberWhite))
  }

  /** Text made only of white space is not a number; a parsed number ends
      in a digit followed only by white space; and only white space, an
      optional sign, digits and white space again can parse. */
  lemma ParseInt32Shape(s: string)
    ensures (forall k :: 0 <= k < |s| ==> IsNumberWhite(s[k])) ==> ParseInt32(s).None?
    ensures ParseInt32(s).Some? ==> exists k :: 0 <= k < |s| && IsDigit(s[k])
                                     && forall m :: k < m < |s| ==> IsNumberWhite(s[m])
    // anything but white space, an optional sign, digits and white space fails
    ensures ParseInt32(s).Some? ==>
              var t := TrimBy(s, IsNumberWhite);
              var d := if |t| > 0 && (t[0] == '+' || t[0] == '-') then 1 else 0;
              d < |t| && forall k :: d <= k < |t| ==> IsDigit(t[k])
  {
    var t := TrimBy(s, IsNumberWhite);
    if ParseInt32(s).Some? {
      var k := LeadingCount(s, IsNumberWhite) + |t| - 1;
      assert t[|t| - 1] == s[k];
      assert IsDigit(s[k]) && forall m :: k < m < |s| ==> IsNumberWhite(s[m]);
    }
  }

  /** The number after the white space is trimmed: an optional sign, then
      the digits. */
  function ParseTrimmed(t: string): Option<int32>
  {
    if |t| > 0 && (t[0] == '-' || t[0] == '+') then SignedValue(t[0] == '-', t[1..])
    else SignedValue(false, t)
  }

  function SignedValue(negative: bool, digits: string): Option<int32>
  {
    if |digits| == 0 || exists k :: 0 <= k < |digits| && !IsDigit(digits[k]) then None
    else
      var v: int := if negative then 0 - DigitsValue(digits) else DigitsValue(digits);
      if INT32_MIN <= v <= INT32_MAX then Some(v) else None
  }

  lemma {:induction false} DigitsOfNat(n: nat)
    ensures DigitsValue(NatToString(n)) == n
  {
    var s := NatToString(n);
    if n >= 10 {
      var p := NatToString(n / 10);
      DigitsOfNat(n / 10);
      assert s[..|s| - 1] == p;
      assert s[|s| - 1] == DigitChar(n % 10);
      assert DigitsValue(s) == DigitsValue(p) * 10 + n % 10;
    }
  }

  /** `Int32.TryParse` accepts white space, an optional sign, digits and
      white space again: the text parses exactly when the signed value of
      the digits fits in 32 bits, and then to that value. */
  lemma ParseInt32Accepts(lead: string, sign: string, digits: string, trail: string)
    requires forall k :: 0 <= k < |lead| ==> IsNumberWhite(lead[k])
    requires sign == "" || sign == "+" || sign == "-"
    requires |digits| > 0 && forall k :: 0 <= k < |digits| ==> IsDigit(digits[k])
    requires forall k :: 0 <= k < |trail| ==> IsNumberWhite(trail[k])
    ensures var v := if sign == "-" then 0 - DigitsValue(digits) else DigitsValue(digits);
      var r := ParseInt32(lead + (sign + digits) + trail);
      && (r.Some? <==> INT32_MIN <= v <= INT32_MAX)
      && (r.Some? ==> r.value == v)
  {
    var core := sign + digits;
    assert core[|core| - 1] == digits[|digits| - 1];
    assert core[0] == '+' || core[0] == '-' || IsDigit(core[0]);
    TrimPadded(lead, core, trail);
    assert ParseInt32(lead + core + trail) == ParseTrimmed(core);
    ParseSignedDigits(sign, digits);
    SignedValueOfDigits(sign == "-", digits);
  }

  lemma SignedValueOfDigits(negative: bool, digits: string)
    requires |digits| > 0 && forall k :: 0 <= k < |digits| ==> IsDigit(digits[k])
    ensures var v := if negative then 0 - DigitsValue(digits) else DigitsValue(digits);
      && (SignedValue(negative, digits).Some? <==> INT32_MIN <= v <= INT32_MAX)
      && (SignedValue(negative, digits).Some? ==> SignedValue(negative, digits).value == v)
  {
  }

  lemma ParseSignedDigits(sign: string, digits: string)
    requires sign == "" || sign == "+" || sign == "-"
    requires |digits| > 0 && forall k :: 0 <= k < |digits| ==> IsDigit(digits[k])
    ensures ParseTrimmed(sign + digits) == SignedValue(sign == "-", digits)
  {
    if sign == "" {
      assert sign + digits == digits;
    } else {
      assert (sign + digits)[0] == sign[0] && (sign + digits)[1..] == digits;
    }
  }

  /** White space around a core that starts and ends with something else
      is exactly what `TrimBy` removes. */
  lemma TrimPadded(lead: string, core: string, trail: string)
    requires forall k :: 0 <= k < |lead| ==> IsNumberWhite(lead[k])
    requires |core| > 0 && !IsNumberWhite(core[0]) && !IsNumberWhite(core[|core| - 1])
    requires forall k :: 0 <= k < |trail| ==> IsNumberWhite(trail[k])
    ensures TrimBy(lead + core + trail, IsNumberWhite) == core
  {
    var s := lead + core + trail;
    var e := |lead| + |core|;
    assert forall k :: 0 <= k < |lead| ==> s[k] == lead[k];
    assert forall k :: e <= k < |s| ==> s[k] == trail[k - e];
    assert s[|lead|] == core[0] && s[e - 1] == core[|core| - 1];
    var i := LeadingCount(s, IsNumberWhite);
    assert i == |lead|;
    var r := TrimBy(s, IsNumberWhite);
    assert r != [];
    assert i + |r| == e;
    assert s[|lead|..e] == core;
  }

  /** A text that starts and ends with a sign or digit has nothing to trim. */
  lemma NothingToTrim(s: string)
    requires |s| > 0 && !IsNumberWhite(s[0]) && !IsNumberWhite(s[|s| - 1])
    ensures TrimBy(s, IsNumberWhite) == s
  {
    assert LeadingCount(s, IsNumberWhite) == 0;
    assert TrailingCount(s, IsNumberWhite) == 0;
  }

  /** Formatting a 32-bit integer and parsing it back gives the integer. */
  lemma ParseFormattedInt(n: int32)
    ensures ParseInt32(IntToString(n)) == Some(n)
  {
    var s := IntToString(n);
    NothingToTrim(s);
    assert ParseInt32(s) == ParseTrimmed(s);
    if n < 0 {
      var m: nat := 0 - n as int;
      assert s[1..] == NatToString(m);
      DigitsOfNat(m);
    } else {
      DigitsOfNat(n);
    }
  }
}

=== FILE: wrappers.dfy ===
/** The two wrapper types of the model: an optional value, and the
    outcome of an operation that can be refused. */
module Wrappers {
  datatype Option<T> = None | Some(value: T)

  datatype Result<T, E> = Ok(value: T) | Err(error: E)
}
